=== FILE: README.md ===
# Data-quality validators in Dafny

This project models the two validation engines of the Data-Validation-Tool repository.

- **`DataQualityValidator`** (`src1/DataQualityValidators.py`) runs four independent checks over an immutable pandas data frame: missing values, duplicate rows, outliers and schema. Each check writes `{status, details}` under its own fixed key in the `validation_results` store, where the last write wins. `get_validation_summary` reports the table's dimensions, the store, and the conjunction of all stored statuses.
- **`DataValidator`** (`src/ValidationUtils.java`) keeps a registry of named regular-expression rules and an append-only log of error messages. It validates strings against a rule, numbers against a closed range, and pairs of strings for consistency.

Everything is modelled as immutable values and pure functions. An operation that mutates the object in the source returns the updated object here (`Ran` and `Reply` carry both the answer and the new state).

| module | file | models |
|---|---|---|
| `Wrappers` | wrappers.dfy | `Option` (a missing cell, an unparsable number, a NaN statistic) |
| `Dataset` | dataset.dfy | the data frame: named, typed columns; rows of optional cells |
| `MissingValues` | missing_values.dfy | `check_missing_values` |
| `Duplicates` | duplicates.dfy | `check_duplicates` (`df.duplicated(subset)`, keep='first') |
| `Outliers` | outliers.dfy | `check_outliers` (mean ± n_std·std band) |
| `Schema` | schema.dfy | `validate_schema` |
| `QualityValidator` | quality_validator.dfy | the result store, the four checks as store updates, `get_validation_summary` |
| `DataValidator` | data_validator.dfy | the Java `DataValidator` |
| `Scenarios` | scenarios.dfy | worked examples on concrete tables |

Modelling decisions:

- A cell is `Option<Value>`, where `None` is a missing value (None/NaN/NaT). A present value is `Num(real)` or an opaque value. Every present cell of a column pandas calls numeric is a `Num`; a bool column is numeric to pandas, and its True and False are the numbers 1 and 0, which is how its mean and standard deviation treat them.
- A column's dtype is the text `str(dtype)` prints plus a flag saying whether pandas calls it numeric.
- Arithmetic is exact over reals.
- The standard deviation is never computed as a square root. The model keeps pandas' sample variance (divisor n − 1) and compares squared distances instead. `Outliers.BandTest` proves this comparison agrees with the source's `value < mean − n_std·std or value > mean + n_std·std` for every standard deviation `sd ≥ 0` whose square is the variance, and for every sign of `n_std`.
- pandas' NaN is modelled where it decides an outcome. With zero rows the missing fraction is `0/0 = NaN`, and NaN is never greater than the threshold. With fewer than two numbers the standard deviation is NaN, so no row lies outside the band.
- The clock read by `get_validation_summary` becomes a parameter (`now`).
- The Java side's foreign calls also become parameters:
  - the regex engine, for rules a caller registers (`RegexEngine`);
  - `Double.parseDouble` (`parse`, where `None` is a NumberFormatException);
  - the rendering of a double inside an error message (`show`).
- The four built-in Java rules are spelled out concretely. `\d` is `[0-9]`, which is what Java uses without UNICODE_CHARACTER_CLASS.

At the edges the code behaves as follows, and so does the model:

- The missing-values threshold and `n_std` are not range-checked. A negative `n_std` makes the two bounds cross, so every present value is listed when std > 0, and every value other than the mean when std = 0.
- A table with zero rows yields NaN fractions rather than 0, so nothing is flagged even for a negative threshold.
- The schema check compares the raw dtype text (`"int64"`, `"float64"`, …) with the expected string, not a canonical type category.
- For `B = [10, 12, 11, 13, 1000]` the check with `n_std = 2` lists nothing (`Scenarios.NoOutlierAtTwoStd`): under pandas' sample standard deviation no value of five can lie more than (n − 1)/√n ≈ 1.79 standard deviations from the mean. With `n_std = 1` it lists `[4]` (`Scenarios.OneOutlierAtOneStd`).
- `duplicated` returns an empty mask for a frame without rows or without columns before it looks at `subset`. A table without rows therefore has 0 duplicates whatever the subset. On a table with rows but no columns, indexing the frame with that empty mask cannot align it with the rows and raises, so the check stores nothing; `Duplicates.ValidSubset` excludes that case.

## Model

| member | source | states |
|---|---|---|
| `Dataset.IndexOf` | src1/DataQualityValidators.py:61 | `df[col]` finds the column with that name; with unique names it is the only one |
| `MissingValues.NullCount` | src1/DataQualityValidators.py:22 | the per-column null count never exceeds the row count |
| `MissingValues.NullCountIsMissingRows` | src1/DataQualityValidators.py:22 | the null count is the number of rows whose cell in the column is missing |
| `MissingValues.MissingFraction` | src1/DataQualityValidators.py:22 | the fraction is undefined (NaN) exactly when the table has no rows; otherwise it lies in [0, 1] and times the row count gives the null count |
| `MissingValues.MissingReport` | src1/DataQualityValidators.py:22-23 | a column is reported iff its missing fraction is strictly greater than the threshold, mapped to that fraction; a column exactly at the threshold is never reported; only table columns appear; an empty table reports nothing |
| `MissingValues.ThresholdMonotone` | src1/DataQualityValidators.py:23 | raising the threshold never adds a reported column |
| `Duplicates.KeyColumns` | src1/DataQualityValidators.py:40 | `subset=None` compares all columns in order; otherwise exactly the named columns, in the given order |
| `Duplicates.CountRepeats` | src1/DataQualityValidators.py:40 | the count is at most the number of rows, and is zero iff no row repeats an earlier one |
| `Duplicates.CountRepeatsIsRepeatRows` | src1/DataQualityValidators.py:40 | the count is the number of rows that have an earlier row with the same key (first occurrences never counted) |
| `Duplicates.CountRepeatsIsSurplus` | src1/DataQualityValidators.py:40 | the count equals the number of rows minus the number of distinct keys |
| `Duplicates.CountDuplicates` | src1/DataQualityValidators.py:40 | a one-pass scan with a set of seen keys computes that count |
| `Duplicates.DuplicateCount` | src1/DataQualityValidators.py:40 | the duplicate count is at most the row count; it is 0 on a table without rows, and otherwise 0 iff no two rows agree on the key columns |
| `Duplicates.AllColumnsCountsDistinctRows` | src1/DataQualityValidators.py:40 | over all columns the duplicate count is the row count minus the number of distinct rows |
| `Duplicates.ComputeDuplicateCount` | src1/DataQualityValidators.py:40 | the computed count is the duplicate count, which on a table with rows is the number of rows repeating an earlier row on the subset |
| `Duplicates.DuplicateCountIsRepeatRows` | src1/DataQualityValidators.py:40 | on a table with rows the duplicate count is exactly the number of rows whose key repeats an earlier row's key |
| `Outliers.ColumnNumbers` | src1/DataQualityValidators.py:62-63 | the statistics range over one number per row whose cell holds a number: the count equals the number of such rows |
| `Outliers.ColumnNumbersCounts` | src1/DataQualityValidators.py:62-63 | each number is collected exactly as many times as there are rows whose cell in the column holds it, so the mean and variance weigh every row |
| `Outliers.ColumnNumbersMembers` | src1/DataQualityValidators.py:62-63 | a number is among the statistics' inputs iff some row's cell in the column holds it |
| `Outliers.SquaredDeviations` | src1/DataQualityValidators.py:63 | the sum of squared deviations is non-negative |
| `Outliers.ColumnStats` | src1/DataQualityValidators.py:62-63 | mean and sample variance exist iff the column holds at least two numbers; the mean times the count is the sum, and the variance times (count − 1) is the sum of squared deviations from the mean (pandas' `std()` with divisor n − 1, squared) |
| `Outliers.SampleStats` | src1/DataQualityValidators.py:62-63 | for at least two numbers: mean · n = sum and variance · (n − 1) = sum of squared deviations, with variance ≥ 0 |
| `Outliers.BandTest` | src1/DataQualityValidators.py:64-66 | the source's strict comparison against mean ± n_std·std holds iff the squared-distance test holds, for any sd ≥ 0 and either sign of n_std |
| `Outliers.ZeroWidthBand` | src1/DataQualityValidators.py:64-66 | with n_std = 0 exactly the values different from the mean are outside the band |
| `Outliers.OutlierRowsFrom` | src1/DataQualityValidators.py:64-67 | lists exactly the rows from a start position whose present value is outside the band, strictly ascending, and nothing when the std is undefined |
| `Outliers.ColumnOutliers` | src1/DataQualityValidators.py:64-67 | a row is listed iff its value is strictly outside the band; missing cells are never listed; rows ascend; fewer than two numbers give an empty list |
| `Outliers.OutliersAmong` | src1/DataQualityValidators.py:60-68 | after the first k requested columns, the entries are exactly the numeric columns among them |
| `Outliers.OutlierReport` | src1/DataQualityValidators.py:58-68 | an entry exists exactly for the requested numeric columns (others skipped silently); each lists exactly its outlier rows in ascending order |
| `Schema.SubsequenceOfTail` | src1/DataQualityValidators.py:87-93 | skipping a matching schema entry keeps the reported order a subsequence of the schema order |
| `Schema.DropHead` | src1/DataQualityValidators.py:87-93 | removing the first reported name keeps the rest in schema order |
| `Schema.Mismatches` | src1/DataQualityValidators.py:85-93 | on a table where no schema column name repeats, a name is reported iff an entry for it names an absent column or one whose dtype text differs; names keep the order of the expected schema |
| `QualityValidator.Init` | src1/DataQualityValidators.py:9-11 | a new validator holds the table and an empty result store |
| `QualityValidator.Record` | src1/DataQualityValidators.py:25-28 | a check's write sets its own key and leaves every other stored entry unchanged |
| `QualityValidator.RecordOverwrites` | src1/DataQualityValidators.py:42-45 | a second write under the same key replaces the first (last write wins) |
| `QualityValidator.RecordCommutes` | src1/DataQualityValidators.py:70-73 | writes under different keys can happen in either order |
| `QualityValidator.CheckMissingValues` | src1/DataQualityValidators.py:13-29 | returns exactly the flagged columns, each mapped to its missing fraction, and no other key; stores them under "missing_values" with status true iff none is flagged; the table is untouched |
| `QualityValidator.CheckDuplicates` | src1/DataQualityValidators.py:31-46 | returns the number of rows repeating an earlier row on the subset (0 for a table without rows) and stores it under "duplicates" with status true iff it is 0 |
| `QualityValidator.CheckOutliers` | src1/DataQualityValidators.py:48-74 | returns one entry per requested numeric column listing exactly its outlier rows in ascending order, and stores it under "outliers" with status true iff every list is empty |
| `QualityValidator.ValidateSchema` | src1/DataQualityValidators.py:76-99 | returns the mismatched names in schema order and stores them under "schema" with status true iff there are none |
| `QualityValidator.GetValidationSummary` | src1/DataQualityValidators.py:101-109 | reports the given timestamp, the row and column counts and the store as it is; overall status is the conjunction of the stored statuses |
| `QualityValidator.SummaryOfFreshValidator` | src1/DataQualityValidators.py:108 | with nothing stored the overall status is vacuously true |
| `QualityValidator.FailureIsFatal` | src1/DataQualityValidators.py:108 | any stored failing check makes the overall status false |
| `QualityValidator.SummaryAfterRecord` | src1/DataQualityValidators.py:108 | after a check's write the overall status is its status together with all other stored statuses |
| `QualityValidator.MissingValuesIdempotent` | src1/DataQualityValidators.py:22-29 | re-running the missing-values check with the same threshold yields the same answer and the same store |
| `QualityValidator.DuplicatesIdempotent` | src1/DataQualityValidators.py:40-46 | re-running the duplicate check with the same subset yields the same answer and the same store |
| `QualityValidator.OutliersIdempotent` | src1/DataQualityValidators.py:58-74 | re-running the outlier check with the same arguments yields the same answer and the same store |
| `QualityValidator.SchemaIdempotent` | src1/DataQualityValidators.py:85-99 | re-running the schema check with the same schema yields the same answer and the same store |
| `QualityValidator.DuplicatesAndSchemaCommute` | src1/DataQualityValidators.py:95-98 | the duplicate and schema checks leave the same store whichever runs first |
| `QualityValidator.RunAll` | src1/DataQualityValidators.py:13-99 | running the four checks on a fresh validator stores exactly four entries, one per check, each carrying that check's own report and pass status, and keeps the table |
| `QualityValidator.MissingReportEmpty` | src1/DataQualityValidators.py:22-28 | the missing-values report is empty iff no column's missing fraction exceeds the threshold |
| `QualityValidator.OutlierReportEmpty` | src1/DataQualityValidators.py:58-73 | every outlier list is empty iff no row of a requested numeric column lies outside the band |
| `QualityValidator.AllPassedOfFour` | src1/DataQualityValidators.py:108 | a store holding exactly the four checks' entries passes iff each of the four does |
| `QualityValidator.RunAllPassed` | src1/DataQualityValidators.py:13-108 | after the four checks the overall status is true iff the missing report is empty, the duplicate count is 0, every outlier list is empty and no schema name mismatches |
| `QualityValidator.FullRunSummary` | src1/DataQualityValidators.py:13-109 | after all four checks the overall status is true iff no column is over the threshold, there are no duplicates, no requested numeric column has an outlier and no schema entry fails |
| `Scenarios.DuplicatesExample` | src1/DataQualityValidators.py:40 | column A = [1, 1, 2, 2, 3] has two duplicate rows |
| `Scenarios.SingleColumnNumbers` | src1/DataQualityValidators.py:62 | a one-column table of numbers contributes every number to the statistics |
| `Scenarios.StatsOfB` | src1/DataQualityValidators.py:62-63 | B = [10, 12, 11, 13, 1000] has mean 209.2 and sample variance 195427.7 |
| `Scenarios.NoOutlierAtTwoStd` | src1/DataQualityValidators.py:64-67 | at n_std = 2 no row of B is an outlier |
| `Scenarios.OneOutlierAtOneStd` | src1/DataQualityValidators.py:64-67 | at n_std = 1 only row 4 of B is an outlier |
| `Scenarios.StatsOfFlags` | src1/DataQualityValidators.py:61-63 | a bool column True, True, True, False is numeric and has mean 0.75 and sample variance 0.25 |
| `Scenarios.FlagOutlier` | src1/DataQualityValidators.py:61-67 | with n_std = 1 that bool column lists only its False row, 3 |
| `Scenarios.NoNullsNothingFlagged` | src1/DataQualityValidators.py:22-28 | a table without missing cells flags no column even at threshold 0, since the comparison is strict |
| `Scenarios.SchemaExample` | src1/DataQualityValidators.py:85-93 | expecting A as int64 and C as float64 against a table with A as float64 and no C reports ["A", "C"] in schema order |
| `DataValidator.Init` | src/ValidationUtils.java:12-23 | a new validator knows exactly the rules email, phone, date and creditCard and has an empty error log |
| `DataValidator.AddValidationRule` | src/ValidationUtils.java:25-27 | binds the name to the new pattern, replacing any earlier binding; other rules and the log are unchanged |
| `DataValidator.Log` | src/ValidationUtils.java:32 | adding an error appends exactly that message and keeps the earlier ones |
| `DataValidator.Validate` | src/ValidationUtils.java:29-42 | true iff the rule exists and its pattern matches the whole input; on true the log is unchanged; on false exactly one "Validation rule not found: " or "Data validation failed for rule: " message is appended |
| `DataValidator.ValidateNumericRange` | src/ValidationUtils.java:44-50 | true iff min ≤ value ≤ max (inclusive); false appends exactly the out-of-range message; true leaves the log unchanged |
| `DataValidator.ClearErrors` | src/ValidationUtils.java:52-54 | the log becomes empty and the rules stay |
| `DataValidator.Perform` | src/ValidationUtils.java:29-79 | a sequence of validate, range and consistency calls never changes the rule table |
| `DataValidator.StepLogs` | src/ValidationUtils.java:29-79 | one validate, range or consistency call keeps the rules and appends exactly the message it logs, if any, to the log |
| `DataValidator.LogIsAppendOnly` | src/ValidationUtils.java:29-79 | after any sequence of validate, range and consistency calls `getValidationErrors()` returns the earlier log followed by exactly one message per call that logs, in call order, each message decided from the rules, bounds and parses alone |
| `DataValidator.LogAfterClear` | src/ValidationUtils.java:52-58 | after `clearErrors()`, `getValidationErrors()` returns exactly the messages of the later logging calls, in order |
| `DataValidator.CheckDataConsistency` | src/ValidationUtils.java:60-79 | "equality" returns string equality and logs nothing; "numeric" appends one error when a value does not parse and otherwise compares the numbers without logging; any other type returns false and appends one "Unknown consistency check type" error |
| `DataValidator.Digits` | src/ValidationUtils.java:20 | `\d{n}` is n digit positions |
| `DataValidator.DigitsMatchExactly` | src/ValidationUtils.java:20 | `^\d{n}$` matches exactly the strings of n decimal digits |
| `DataValidator.DefaultPhoneRule` | src/ValidationUtils.java:20 | the default "phone" rule accepts exactly the strings of 10 digits |
| `DataValidator.DefaultCreditCardRule` | src/ValidationUtils.java:22 | the default "creditCard" rule accepts exactly the strings of 16 digits |
| `DataValidator.DefaultDateRule` | src/ValidationUtils.java:21 | the default "date" rule accepts exactly the strings shaped dddd-dd-dd, with no calendar check |
| `DataValidator.UnknownRuleFails` | src/ValidationUtils.java:30-34 | an unregistered rule fails and appends exactly "Validation rule not found: " + its name |
| `DataValidator.AddedRuleIsUsed` | src/ValidationUtils.java:25-41 | after registering a rule, validating against it consults exactly the registered pattern |

## Left out

- `DataQualityUI` (src1/DataQualityValidators.py:111-283) is left out. It is an interactive menu: terminal I/O, screen clearing, sleeping, and CSV/Excel loading through pandas.
- `createAndShowGUI` (src/ValidationUtils.java:81-112) is left out. It is Swing UI, and the panel builders it calls are not part of this model.
- The summary timestamp (`datetime.now()`) is a parameter, because the clock is outside the model.
- Floating point is left out: no rounding, no infinities, and NaN only where it decides an outcome (see above). `ValidateNumericRange` therefore does not model Java's behaviour for a NaN value, which passes because both comparisons are false. `CheckDataConsistency` does not model `"NaN"` parsing to a value unequal to itself.
- pandas' `is_numeric_dtype` and the dtype text are taken as given per column, not derived from the cell values. Complex columns, which pandas calls numeric but cannot order, are not modelled: their numbers are reals here.
- `Duplicates.ValidSubset` and `Outliers.ValidColumns` are preconditions, and the model does not cover the error paths they exclude. On a table with rows, pandas raises KeyError for a requested column that does not exist and ValueError for an empty `subset` list. On a table with rows but no columns, `df[df.duplicated(subset)]` raises because the empty mask cannot be aligned with the rows. On a table without rows `duplicated` raises nothing, and the model accepts any subset there.
- Duplicates.DuplicateCount: requires `ValidSubset`, so it says nothing about a table with rows but no columns, where the source raises instead of counting.
- Duplicates.AllColumnsCountsDistinctRows: requires `ValidSubset(t, None)`, which excludes a table with rows but no columns, where the source raises.
- QualityValidator.CheckDuplicates: requires `ValidSubset`, so the raise on a table with rows but no columns, which stores nothing, is not modelled.
- Aliasing is not modelled. `get_validation_summary` returns the live `validation_results` dict (src1/DataQualityValidators.py:107), so a summary taken earlier shows the results of checks run later; `check_outliers` and `validate_schema` return the very object they store as details (src1/DataQualityValidators.py:68-74, 91-99). The model returns values, so a summary is a snapshot of the store when it is taken.
- Python default arguments are not part of a Dafny signature. Callers pass `QualityValidator.DefaultThreshold` (0.1), `None` or `QualityValidator.DefaultNStd` (3) themselves. The menu's "Run All Checks" (src1/DataQualityValidators.py:228-236), which relies on these defaults, runs only three checks and is part of the user interface, which is left out; `QualityValidator.RunAll` takes every argument explicitly and also runs the schema check.
- `Dataset.WellFormed` requires unique column names. pandas allows repeated names, and then `df[col]` returns a frame rather than a column.
- Schema.Mismatches: requires `SchemaColumnsUnique`, because on a table where a column named in the schema occurs twice `df[col].dtype` raises AttributeError (src1/DataQualityValidators.py:89); that error path is not modelled.
- QualityValidator.ValidateSchema: requires `Schema.SchemaColumnsUnique` for the same reason; the source raises there and stores nothing.
- Outlier indices are row positions. pandas lists index labels, and these coincide with positions for the default RangeIndex the loader produces.
- The Java regex engine is not modelled for rules a caller registers: their matching is the `RegexEngine` parameter. `Pattern.compile` rejecting a malformed pattern (PatternSyntaxException) in `addValidationRule` is not modelled.
- The "email" default rule is modelled concretely, but no lemma is stated about it.
- Java `null` arguments, which cause NullPointerException, are not modelled.
- `Double.parseDouble` and the decimal rendering of doubles in messages are parameters (`parse`, `show`).

=== FILE: data_validator.dfy ===
/** The rule-based string validator: a registry of named patterns and a log
    of the errors found so far. */
module DataValidator {
  import opened Wrappers

  /** One position of a fixed-width pattern: a decimal digit (`\d`, which
      without the UNICODE_CHARACTER_CLASS flag is [0-9]) or a literal. */
  datatype Atom = Digit | Literal(c: char)

  /** A compiled pattern. The built-in rules are spelled out; a pattern a
      caller registers is kept as its source text and left to the regex
      engine. */
  datatype Pattern =
    | Fixed(atoms: seq<Atom>)   // ^a1a2...an$ with single-character atoms
    | EmailShape                // ^[A-Za-z0-9+_.-]+@(.+)$
    | Compiled(source: string)  // Pattern.compile(source) of a registered rule

  /** Whether `regex` matches the whole of `input` (`Matcher.matches()`);
      the regex engine itself is not modelled. */
  type RegexEngine = (string, string) -> bool

  predicate IsDigit(c: char)
  {
    '0' <= c <= '9'
  }

  predicate AtomMatches(a: Atom, c: char)
  {
    match a
    case Digit => IsDigit(c)
    case Literal(l) => c == l
  }

  /** `[A-Za-z0-9+_.-]`. */
  predicate IsLocalChar(c: char)
  {
    ('A' <= c <= 'Z') || ('a' <= c <= 'z') || IsDigit(c) || c == '+' || c == '_' || c == '.' || c == '-'
  }

  /** The characters `.` does not match: the line terminators. */
  predicate IsLineTerminator(c: char)
  {
    c == '\n' || c == '\r' || c == '\U{0085}' || c == '\U{2028}' || c == '\U{2029}'
  }

  /** The whole of `s` is one or more local characters, `@`, and one or more
      characters other than line terminators. The local part cannot contain
      `@`, so the split is at the first `@`. */
  predicate EmailMatches(s: string)
  {
    exists i :: 0 < i < |s| - 1 && s[i] == '@'
      && (forall j :: 0 <= j < i ==> IsLocalChar(s[j]))
      && (forall j :: i < j < |s| ==> !IsLineTerminator(s[j]))
  }

  /** `pattern.matcher(data).matches()`. */
  predicate Matches(engine: RegexEngine, p: Pattern, data: string)
  {
    match p
    case Fixed(atoms) =>
      |data| == |atoms| && forall i :: 0 <= i < |data| ==> AtomMatches(atoms[i], data[i])
    case EmailShape => EmailMatches(data)
    case Compiled(source) => engine(source, data)
  }

  function Digits(n: nat): (atoms: seq<Atom>)
    ensures |atoms| == n && forall i :: 0 <= i < n ==> atoms[i] == Digit
  {
    seq(n, _ => Digit)
  }

  /** `^\d{10}$`. */
  const PhonePattern: Pattern := Fixed(Digits(10))
  /** `^\d{4}-\d{2}-\d{2}$`. */
  const DatePattern: Pattern := Fixed(Digits(4) + [Literal('-')] + Digits(2) + [Literal('-')] + Digits(2))
  /** `^\d{16}$`. */
  const CreditCardPattern: Pattern := Fixed(Digits(16))

  /** The validator's state: `validationRules` and `validationErrors`. */
  datatype Validator = Validator(rules: map<string, Pattern>, errors: seq<string>)

  /** The answer of a validation, with the validator it leaves. */
  datatype Reply = Reply(validator: Validator, ok: bool)

  /** `new DataValidator()`: the four default rules and an empty log. */
  function Init(): (v: Validator)
    ensures v.rules.Keys == {"email", "phone", "date", "creditCard"}
    ensures v.errors == []
  {
    Validator(
      map["email" := EmailShape, "phone" := PhonePattern, "date" := DatePattern,
          "creditCard" := CreditCardPattern],
      [])
  }

  /** `addValidationRule(ruleName, pattern)`: bind the name to the new pattern,
      replacing any earlier binding. */
  function AddValidationRule(v: Validator, ruleName: string, pattern: string): (v': Validator)
    ensures v'.rules.Keys == v.rules.Keys + {ruleName}
    ensures v'.rules[ruleName] == Compiled(pattern)
    ensures forall k :: k in v.rules && k != ruleName ==> v'.rules[k] == v.rules[k]
    ensures v'.errors == v.errors
  {
    v.(rules := v.rules[ruleName := Compiled(pattern)])
  }

  /** The log after adding one message. */
  function Log(v: Validator, message: string): (v': Validator)
    ensures v'.rules == v.rules
    ensures |v'.errors| == |v.errors| + 1
    ensures v'.errors[..|v.errors|] == v.errors && v'.errors[|v.errors|] == message
  {
    v.(errors := v.errors + [message])
  }

  /** The outcome of a checking operation: true with the log untouched, or
      false with exactly `message` appended; the rules never change. */
  predicate PassOrLogged(v: Validator, reply: Reply, message: string)
  {
    && reply.validator.rules == v.rules
    && (if reply.ok then reply.validator.errors == v.errors
        else reply.validator.errors == v.errors + [message])
  }

  /** `validate(data, ruleType)`. */
  function Validate(v: Validator, engine: RegexEngine, data: string, ruleType: string): (reply: Reply)
    ensures reply.ok <==> ruleType in v.rules && Matches(engine, v.rules[ruleType], data)
    ensures ruleType !in v.rules ==>
      PassOrLogged(v, reply, "Validation rule not found: " + ruleType)
    ensures ruleType in v.rules ==>
      PassOrLogged(v, reply, "Data validation failed for rule: " + ruleType)
  {
    if ruleType !in v.rules then Reply(Log(v, "Validation rule not found: " + ruleType), false)
    else if !Matches(engine, v.rules[ruleType], data) then
      Reply(Log(v, "Data validation failed for rule: " + ruleType), false)
    else Reply(v, true)
  }

  /** `validateNumericRange(value, min, max)`; `show` renders a double the
      way string concatenation does. */
  function ValidateNumericRange(v: Validator, show: real -> string, value: real, min: real, max: real): (reply: Reply)
    ensures reply.ok <==> min <= value <= max
    ensures PassOrLogged(v, reply,
      "Value " + show(value) + " is outside range [" + show(min) + ", " + show(max) + "]")
  {
    if value < min || value > max then
      Reply(Log(v, "Value " + show(value) + " is outside range [" + show(min) + ", " + show(max) + "]"), false)
    else Reply(v, true)
  }

  /** `clearErrors()`. */
  function ClearErrors(v: Validator): (v': Validator)
    ensures v'.errors == [] && v'.rules == v.rules
  {
    v.(errors := [])
  }

  /** `getValidationErrors()`: a copy of the log. */
  function GetValidationErrors(v: Validator): seq<string>
  {
    v.errors
  }

  /** `checkDataConsistency(value1, value2, consistencyType)`; `parse` is
      `Double.parseDouble`, `None` standing for NumberFormatException. */
  function CheckDataConsistency(v: Validator, parse: string -> Option<real>,
                                value1: string, value2: string, consistencyType: string): (reply: Reply)
    ensures reply.validator.rules == v.rules
    ensures consistencyType == "equality" ==>
      reply.ok == (value1 == value2) && reply.validator.errors == v.errors
    ensures consistencyType == "numeric" ==>
      PassOrLogged(v, reply, "Invalid numeric values for consistency check") ||
      (!reply.ok && reply.validator.errors == v.errors)
    ensures consistencyType == "numeric" && (parse(value1).None? || parse(value2).None?) ==>
      !reply.ok && reply.validator.errors == v.errors + ["Invalid numeric values for consistency check"]
    ensures consistencyType == "numeric" && parse(value1).Some? && parse(value2).Some? ==>
      reply.ok == (parse(value1).value == parse(value2).value) && reply.validator.errors == v.errors
    ensures consistencyType != "equality" && consistencyType != "numeric" ==>
      !reply.ok && reply.validator.errors == v.errors + ["Unknown consistency check type: " + consistencyType]
  {
    if consistencyType == "equality" then Reply(v, value1 == value2)
    else if consistencyType == "numeric" then
      match (parse(value1), parse(value2))
      case (Some(a), Some(b)) => Reply(v, a == b)
      case _ => Reply(Log(v, "Invalid numeric values for consistency check"), false)
    else Reply(Log(v, "Unknown consistency check type: " + consistencyType), false)
  }

  /** Every digit string of length `n` matches `n` digit atoms and nothing else does. */
  lemma DigitsMatchExactly(engine: RegexEngine, n: nat, s: string)
    ensures Matches(engine, Fixed(Digits(n)), s) <==> |s| == n && forall i :: 0 <= i < |s| ==> IsDigit(s[i])
  {
  }

  /** The default "phone" rule accepts exactly the strings of ten digits. */
  lemma DefaultPhoneRule(engine: RegexEngine, s: string)
    ensures Validate(Init(), engine, s, "phone").ok <==>
      |s| == 10 && forall i :: 0 <= i < |s| ==> IsDigit(s[i])
  {
  }

  /** The default "creditCard" rule accepts exactly the strings of sixteen digits. */
  lemma DefaultCreditCardRule(engine: RegexEngine, s: string)
    ensures Validate(Init(), engine, s, "creditCard").ok <==>
      |s| == 16 && forall i :: 0 <= i < |s| ==> IsDigit(s[i])
  {
  }

  /** The shape dddd-dd-dd. */
  predicate DateShaped(s: string)
  {
    && |s| == 10
    && s[4] == '-' && s[7] == '-'
    && forall i :: 0 <= i < 10 && i != 4 && i != 7 ==> IsDigit(s[i])
  }

  /** The default "date" rule accepts exactly the strings shaped dddd-dd-dd;
      it checks the shape only, not the calendar. */
  lemma DefaultDateRule(engine: RegexEngine, s: string)
    ensures Validate(Init(), engine, s, "date").ok <==> DateShaped(s)
  {
  }

  /** A rule that is not registered always fails and logs one error. */
  lemma UnknownRuleFails(v: Validator, engine: RegexEngine, data: string, ruleType: string)
    requires ruleType !in v.rules
    ensures !Validate(v, engine, data, ruleType).ok
    ensures Validate(v, engine, data, ruleType).validator.errors ==
      v.errors + ["Validation rule not found: " + ruleType]
  {
  }

  /** After registering a rule, validating against it consults exactly the
      registered pattern. */
  lemma AddedRuleIsUsed(v: Validator, engine: RegexEngine, ruleName: string, pattern: string, data: string)
    ensures Validate(AddValidationRule(v, ruleName, pattern), engine, data, ruleName).ok == engine(pattern, data)
  {
  }

  /** One call of an operation that may log. */
  datatype Call =
    | ValidateCall(data: string, ruleType: string)
    | RangeCall(value: real, min: real, max: real)
    | ConsistencyCall(value1: string, value2: string, consistencyType: string)

  /** The reply of one call. */
  function Step(v: Validator, engine: RegexEngine, show: real -> string, parse: string -> Option<real>,
                call: Call): Reply
  {
    match call
    case ValidateCall(data, ruleType) => Validate(v, engine, data, ruleType)
    case RangeCall(value, min, max) => ValidateNumericRange(v, show, value, min, max)
    case ConsistencyCall(value1, value2, consistencyType) =>
      CheckDataConsistency(v, parse, value1, value2, consistencyType)
  }

  /** Perform `calls` in order on `v`, each on the validator the previous
      one left. */
  function Perform(v: Validator, engine: RegexEngine, show: real -> string, parse: string -> Option<real>,
                   calls: seq<Call>): (v': Validator)
    ensures v'.rules == v.rules
    decreases |calls|
  {
    if |calls| == 0 then v
    else Perform(Step(v, engine, show, parse, calls[0]).validator, engine, show, parse, calls[1..])
  }

  /** The message a call leaves against the rule table `rules`, if any,
      decided from the rules, the bounds and the parses alone. */
  function Logged(rules: map<string, Pattern>, engine: RegexEngine, show: real -> string,
                  parse: string -> Option<real>, call: Call): Option<string>
  {
    match call
    case ValidateCall(data, ruleType) =>
      if ruleType !in rules then Some("Validation rule not found: " + ruleType)
      else if Matches(engine, rules[ruleType], data) then None
      else Some("Data validation failed for rule: " + ruleType)
    case RangeCall(value, min, max) =>
      if min <= value <= max then None
      else Some("Value " + show(value) + " is outside range [" + show(min) + ", " + show(max) + "]")
    case ConsistencyCall(value1, value2, consistencyType) =>
      if consistencyType == "equality" then None
      else if consistencyType != "numeric" then Some("Unknown consistency check type: " + consistencyType)
      else if parse(value1).Some? && parse(value2).Some? then None
      else Some("Invalid numeric values for consistency check")
  }

  /** No entry or the one entry a call logs. */
  function Entries(message: Option<string>): seq<string>
  {
    match message
    case Some(m) => [m]
    case None => []
  }

  /** The messages of the calls that log, in call order. */
  function LoggedAll(rules: map<string, Pattern>, engine: RegexEngine, show: real -> string,
                     parse: string -> Option<real>, calls: seq<Call>): seq<string>
    decreases |calls|
  {
    if |calls| == 0 then []
    else Entries(Logged(rules, engine, show, parse, calls[0])) + LoggedAll(rules, engine, show, parse, calls[1..])
  }

  /** One call appends exactly the message it logs, if any. */
  lemma StepLogs(v: Validator, engine: RegexEngine, show: real -> string, parse: string -> Option<real>,
                 call: Call)
    ensures Step(v, engine, show, parse, call).validator.rules == v.rules
    ensures Step(v, engine, show, parse, call).validator.errors ==
      v.errors + Entries(Logged(v.rules, engine, show, parse, call))
  {
  }

  /** Performing a non-empty sequence is performing its tail after the
      first call. */
  lemma PerformUnfolds(v: Validator, engine: RegexEngine, show: real -> string,
                       parse: string -> Option<real>, calls: seq<Call>)
    requires |calls| > 0
    ensures Perform(v, engine, show, parse, calls) ==
      Perform(Step(v, engine, show, parse, calls[0]).validator, engine, show, parse, calls[1..])
    ensures LoggedAll(v.rules, engine, show, parse, calls) ==
      Entries(Logged(v.rules, engine, show, parse, calls[0])) + LoggedAll(v.rules, engine, show, parse, calls[1..])
  {
  }

  /** The log is append-only: after any sequence of calls it holds the
      earlier entries followed by one message per logging call, in order. */
  lemma {:induction false} LogIsAppendOnly(v: Validator, engine: RegexEngine, show: real -> string,
                                           parse: string -> Option<real>, calls: seq<Call>)
    ensures GetValidationErrors(Perform(v, engine, show, parse, calls)) ==
      GetValidationErrors(v) + LoggedAll(v.rules, engine, show, parse, calls)
    decreases |calls|
  {
    if |calls| > 0 {
      var next := Step(v, engine, show, parse, calls[0]).validator;
      var first := Entries(Logged(v.rules, engine, show, parse, calls[0]));
      var rest := LoggedAll(v.rules, engine, show, parse, calls[1..]);
      StepLogs(v, engine, show, parse, calls[0]);
      PerformUnfolds(v, engine, show, parse, calls);
      LogIsAppendOnly(next, engine, show, parse, calls[1..]);
      AppendTwice(v.errors, first, rest);
    }
  }

  lemma AppendTwice(log: seq<string>, first: seq<string>, rest: seq<string>)
    ensures (log + first) + rest == log + (first + rest)
  {
  }

  /** After `clearErrors()` the log reports exactly the messages of the
      later calls that log, in call order. */
  lemma LogAfterClear(v: Validator, engine: RegexEngine, show: real -> string,
                      parse: string -> Option<real>, calls: seq<Call>)
    ensures GetValidationErrors(Perform(ClearErrors(v), engine, show, parse, calls)) ==
      LoggedAll(v.rules, engine, show, parse, calls)
  {
    LogIsAppendOnly(ClearErrors(v), engine, show, parse, calls);
  }
}

=== FILE: dataset.dfy ===
/** The read-only view of the loaded table that every data-quality check
    works on: an ordered sequence of rows over named, typed columns. */
module Dataset {
  import opened Wrappers

  /** A present cell value: a number, or any other value (text, timestamp,
      ...) kept opaque because no check looks inside it. A column pandas
      calls numeric holds numbers only; in a bool column True is 1 and
      False is 0, as pandas' mean and std treat them. An opaque value is
      identified by its equality class under Python's `==` (so 1, 1.0 and
      True in an object column share one `key`); two opaque cells are equal
      exactly when `==` says so. */
  datatype Value = Num(x: real) | Opaque(key: string)

  /** A cell of the table; `None` is a missing value (None, NaN or NaT). */
  type Cell = Option<Value>

  /** A column's dtype: the text `str(dtype)` prints (such as "int64" or
      "object") and whether pandas classifies it as numeric. */
  datatype DType = DType(text: string, numeric: bool)

  datatype Column = Column(name: string, dtype: DType)

  /** The data frame: columns in order, rows in order, cells by column position. */
  datatype Table = Table(columns: seq<Column>, rows: seq<seq<Cell>>)

  /** The column names in column order. */
  function Names(t: Table): (ns: seq<string>)
    ensures |ns| == |t.columns|
    ensures forall c :: 0 <= c < |t.columns| ==> ns[c] == t.columns[c].name
  {
    seq(|t.columns|, c requires 0 <= c < |t.columns| => t.columns[c].name)
  }

  predicate DistinctNames(t: Table)
  {
    forall c, d :: 0 <= c < d < |t.columns| ==> t.columns[c].name != t.columns[d].name
  }

  /** Column names are unique, every row has one cell per column, and every
      present cell of a numeric column is a number. */
  predicate WellFormed(t: Table)
  {
    && DistinctNames(t)
    && (forall r :: 0 <= r < |t.rows| ==> |t.rows[r]| == |t.columns|)
    && (forall r, c ::
          0 <= r < |t.rows| && 0 <= c < |t.columns| && t.columns[c].dtype.numeric && t.rows[r][c].Some?
          ==> t.rows[r][c].value.Num?)
  }

  predicate HasColumn(t: Table, name: string)
  {
    name in Names(t)
  }

  /** Position of the first column called `name`. */
  function FindColumn(cols: seq<Column>, name: string): (c: nat)
    requires exists d :: 0 <= d < |cols| && cols[d].name == name
    ensures c < |cols| && cols[c].name == name
    ensures forall d :: 0 <= d < c ==> cols[d].name != name
  {
    if cols[0].name == name then 0
    else
      assert exists d :: 0 <= d < |cols[1..]| && cols[1..][d].name == name by {
        var d :| 0 <= d < |cols| && cols[d].name == name;
        assert cols[1..][d - 1].name == name;
      }
      1 + FindColumn(cols[1..], name)
  }

  /** Position of column `name` (`df[name]`); in a well-formed table it is the
      only column with that name. */
  function IndexOf(t: Table, name: string): (c: nat)
    requires HasColumn(t, name)
    ensures c < |t.columns| && t.columns[c].name == name
    ensures DistinctNames(t) ==>
      forall d :: 0 <= d < |t.columns| && t.columns[d].name == name ==> d == c
  {
    var ns := Names(t);
    assert exists d :: 0 <= d < |t.columns| && t.columns[d].name == name by {
      var d :| 0 <= d < |ns| && ns[d] == name;
    }
    FindColumn(t.columns, name)
  }

  /** `is_numeric_dtype(df[name])`. */
  predicate IsNumericColumn(t: Table, name: string)
    requires HasColumn(t, name)
  {
    t.columns[IndexOf(t, name)].dtype.numeric
  }

  /** The number a cell holds, if any; missing and non-numeric cells hold none. */
  function NumValue(cell: Cell): (v: Option<real>)
    ensures v.Some? <==> cell.Some? && cell.value.Num?
    ensures v.Some? ==> cell == Some(Num(v.value))
  {
    match cell
    case Some(Num(x)) => Some(x)
    case _ => None
  }
}

=== FILE: duplicates.dfy ===
/** The duplicate check: how many rows repeat an earlier row on a chosen set
    of columns (`df.duplicated(subset)` with pandas' default keep='first'). */
module Duplicates {
  import opened Wrappers
  import opened Dataset

  /** The names in `subset` are all columns of `t`; pandas raises KeyError
      otherwise, and ValueError for an empty list. */
  predicate SubsetPresent(t: Table, subset: Option<seq<string>>)
  {
    subset.Some? ==>
      |subset.value| > 0 && forall j :: 0 <= j < |subset.value| ==> HasColumn(t, subset.value[j])
  }

  /** The calls `df[df.duplicated(subset)]` answers without raising. A table
      without rows accepts any subset: `duplicated` returns an empty mask
      before it looks at `subset`. A table with rows but no columns gets that
      same empty mask, which cannot be aligned with its rows, so indexing
      with it raises. Otherwise the subset's names must all be present. */
  predicate ValidSubset(t: Table, subset: Option<seq<string>>)
  {
    |t.rows| == 0 || (|t.columns| > 0 && SubsetPresent(t, subset))
  }

  /** Positions of the key columns: every column for `None`, else the named ones. */
  function KeyColumns(t: Table, subset: Option<seq<string>>): (idx: seq<nat>)
    requires SubsetPresent(t, subset)
    ensures forall j :: 0 <= j < |idx| ==> idx[j] < |t.columns|
    ensures subset.None? ==> |idx| == |t.columns| && forall j :: 0 <= j < |idx| ==> idx[j] == j
    ensures subset.Some? ==> |idx| == |subset.value|
    ensures subset.Some? ==>
      forall j :: 0 <= j < |idx| ==> t.columns[idx[j]].name == subset.value[j]
  {
    match subset
    case None => seq(|t.columns|, j => j)
    case Some(names) =>
      seq(|names|, j requires 0 <= j < |names| && HasColumn(t, names[j]) => IndexOf(t, names[j]))
  }

  /** The cells of `row` at positions `idx`, in that order. */
  function Project(row: seq<Cell>, idx: seq<nat>): (key: seq<Cell>)
    requires forall j :: 0 <= j < |idx| ==> idx[j] < |row|
    ensures |key| == |idx|
    ensures forall j :: 0 <= j < |idx| ==> key[j] == row[idx[j]]
  {
    seq(|idx|, j requires 0 <= j < |idx| => row[idx[j]])
  }

  /** The key of every row, in row order. */
  function RowKeys(t: Table, idx: seq<nat>): (keys: seq<seq<Cell>>)
    requires WellFormed(t)
    requires forall j :: 0 <= j < |idx| ==> idx[j] < |t.columns|
    ensures |keys| == |t.rows|
    ensures forall r :: 0 <= r < |t.rows| ==> keys[r] == Project(t.rows[r], idx)
  {
    seq(|t.rows|, r requires 0 <= r < |t.rows| => Project(t.rows[r], idx))
  }

  /** Entry `i` repeats some entry before it. */
  predicate RepeatsEarlier<K(==)>(keys: seq<K>, i: nat)
    requires i < |keys|
  {
    exists j :: 0 <= j < i && keys[j] == keys[i]
  }

  /** Number of entries that repeat an earlier entry; first occurrences are
      never counted. */
  function CountRepeats<K(==)>(keys: seq<K>): (n: nat)
    ensures n <= |keys|
    ensures n == 0 <==> forall i :: 0 <= i < |keys| ==> !RepeatsEarlier(keys, i)
    decreases |keys|
  {
    if |keys| == 0 then 0
    else
      var front := keys[..|keys| - 1];
      var last := keys[|keys| - 1];
      assert forall i :: 0 <= i < |front| ==> (RepeatsEarlier(front, i) <==> RepeatsEarlier(keys, i)) by {
        forall i | 0 <= i < |front|
          ensures RepeatsEarlier(front, i) <==> RepeatsEarlier(keys, i)
        {
          if RepeatsEarlier(keys, i) {
            var j :| 0 <= j < i && keys[j] == keys[i];
            assert front[j] == front[i];
          }
        }
      }
      assert last in front <==> RepeatsEarlier(keys, |keys| - 1) by {
        if last in front {
          var j :| 0 <= j < |front| && front[j] == last;
          assert keys[j] == keys[|keys| - 1];
        }
      }
      CountRepeats(front) + (if last in front then 1 else 0)
  }

  /** The distinct entries of `keys`. */
  function Distinct<K>(keys: seq<K>): set<K>
  {
    set k | k in keys
  }

  /** The rows that repeat an earlier row. */
  ghost function RepeatRows<K>(keys: seq<K>): set<nat>
  {
    set i: nat | i < |keys| && RepeatsEarlier(keys, i)
  }

  /** The count is the number of rows having an earlier identical row. */
  lemma {:induction false} CountRepeatsIsRepeatRows<K>(keys: seq<K>)
    ensures CountRepeats(keys) == |RepeatRows(keys)|
    decreases |keys|
  {
    if |keys| == 0 {
      assert RepeatRows(keys) == {};
    } else {
      var n := |keys| - 1;
      var front := keys[..n];
      CountRepeatsIsRepeatRows(front);
      assert forall i :: 0 <= i < n ==> (RepeatsEarlier(front, i) <==> RepeatsEarlier(keys, i)) by {
        forall i | 0 <= i < n
          ensures RepeatsEarlier(front, i) <==> RepeatsEarlier(keys, i)
        {
          if RepeatsEarlier(keys, i) {
            var j :| 0 <= j < i && keys[j] == keys[i];
            assert front[j] == front[i];
          }
        }
      }
      if keys[n] in front {
        var j :| 0 <= j < n && front[j] == keys[n];
        assert keys[j] == keys[n];
        assert RepeatRows(keys) == RepeatRows(front) + {n};
      } else {
        assert !RepeatsEarlier(keys, n);
        assert RepeatRows(keys) == RepeatRows(front);
      }
    }
  }

  /** The count is the number of entries minus the number of distinct ones. */
  lemma {:induction false} CountRepeatsIsSurplus<K>(keys: seq<K>)
    ensures CountRepeats(keys) == |keys| - |Distinct(keys)|
    decreases |keys|
  {
    if |keys| > 0 {
      var n := |keys| - 1;
      var front := keys[..n];
      CountRepeatsIsSurplus(front);
      assert keys == front + [keys[n]];
      assert Distinct(keys) == Distinct(front) + {keys[n]};
      if keys[n] in front {
        assert Distinct(keys) == Distinct(front);
      } else {
        assert keys[n] !in Distinct(front);
      }
    }
  }

  /** `check_duplicates(subset)`'s count, computed in one pass with a set of
      the keys seen so far. */
  method CountDuplicates<K(==)>(keys: seq<K>) returns (n: nat)
    ensures n == CountRepeats(keys)
  {
    var seen: set<K> := {};
    n := 0;
    var i := 0;
    while i < |keys|
      invariant 0 <= i <= |keys|
      invariant seen == Distinct(keys[..i])
      invariant n == CountRepeats(keys[..i])
    {
      assert keys[..i + 1][..i] == keys[..i];
      assert keys[..i + 1] == keys[..i] + [keys[i]];
      if keys[i] in seen {
        n := n + 1;
      }
      seen := seen + {keys[i]};
      i := i + 1;
    }
    assert keys[..|keys|] == keys;
  }

  /** The duplicate count of `t` on `subset` (all columns when `None`); a
      table without rows has none whatever the subset. */
  function DuplicateCount(t: Table, subset: Option<seq<string>>): (n: nat)
    requires WellFormed(t) && ValidSubset(t, subset)
    ensures n <= |t.rows|
    ensures |t.rows| == 0 ==> n == 0
    ensures |t.rows| > 0 ==> (n == 0 <==>
      forall i, j :: 0 <= j < i < |t.rows| ==>
        Project(t.rows[j], KeyColumns(t, subset)) != Project(t.rows[i], KeyColumns(t, subset)))
  {
    if |t.rows| == 0 then 0
    else
      var keys := RowKeys(t, KeyColumns(t, subset));
      var n := CountRepeats(keys);
      assert n == 0 <==> forall i, j :: 0 <= j < i < |keys| ==> keys[j] != keys[i] by {
        if n != 0 {
          var i :| 0 <= i < |keys| && RepeatsEarlier(keys, i);
          var j :| 0 <= j < i && keys[j] == keys[i];
        } else {
          forall i, j | 0 <= j < i < |keys|
            ensures keys[j] != keys[i]
          {
            assert keys[j] == keys[i] ==> RepeatsEarlier(keys, i);
          }
        }
      }
      n
  }

  /** On a table with rows the count is the number of rows whose key
      repeats an earlier row's key. */
  lemma DuplicateCountIsRepeatRows(t: Table, subset: Option<seq<string>>)
    requires WellFormed(t) && ValidSubset(t, subset)
    ensures |t.rows| > 0 ==>
      DuplicateCount(t, subset) == |RepeatRows(RowKeys(t, KeyColumns(t, subset)))|
  {
    if |t.rows| > 0 {
      CountRepeatsIsRepeatRows(RowKeys(t, KeyColumns(t, subset)));
    }
  }

  /** Over all columns the key of a row is the row itself, so the count is
      the row count minus the number of distinct rows. */
  lemma AllColumnsCountsDistinctRows(t: Table)
    requires WellFormed(t) && ValidSubset(t, None)
    ensures DuplicateCount(t, None) == |t.rows| - |Distinct(t.rows)|
  {
    if |t.rows| == 0 {
      assert Distinct(t.rows) == {};
    } else {
      var idx := KeyColumns(t, None);
      var keys := RowKeys(t, idx);
      forall r | 0 <= r < |t.rows|
        ensures keys[r] == t.rows[r]
      {
        assert Project(t.rows[r], idx) == t.rows[r];
      }
      assert keys == t.rows;
      CountRepeatsIsSurplus(keys);
    }
  }

  /** `check_duplicates(subset)` as the one-pass method computes it. */
  method ComputeDuplicateCount(t: Table, subset: Option<seq<string>>) returns (n: nat)
    requires WellFormed(t) && ValidSubset(t, subset)
    ensures n == DuplicateCount(t, subset)
    ensures |t.rows| > 0 ==> n == |RepeatRows(RowKeys(t, KeyColumns(t, subset)))|
  {
    if |t.rows| == 0 {
      n := 0;
    } else {
      var keys := RowKeys(t, KeyColumns(t, subset));
      n := CountDuplicates(keys);
      CountRepeatsIsRepeatRows(keys);
    }
  }
}

=== FILE: missing_values.dfy ===
/** The missing-values check: which columns have a larger share of missing
    cells than the caller tolerates. */
module MissingValues {
  import opened Wrappers
  import opened Dataset

  /** Number of rows whose cell in column `c` is missing (`isnull().sum()`). */
  function NullCount(rows: seq<seq<Cell>>, c: nat): (n: nat)
    requires forall r :: 0 <= r < |rows| ==> c < |rows[r]|
    ensures n <= |rows|
    decreases |rows|
  {
    if |rows| == 0 then 0
    else NullCount(rows[..|rows| - 1], c) + (if rows[|rows| - 1][c].None? then 1 else 0)
  }

  /** The rows of `rows` whose cell in column `c` is missing. */
  ghost function MissingRows(rows: seq<seq<Cell>>, c: nat): set<nat>
    requires forall r :: 0 <= r < |rows| ==> c < |rows[r]|
  {
    set r: nat | r < |rows| && rows[r][c].None?
  }

  /** The count is the number of rows with a missing cell in the column. */
  lemma {:induction false} NullCountIsMissingRows(rows: seq<seq<Cell>>, c: nat)
    requires forall r :: 0 <= r < |rows| ==> c < |rows[r]|
    ensures NullCount(rows, c) == |MissingRows(rows, c)|
    decreases |rows|
  {
    if |rows| == 0 {
      assert MissingRows(rows, c) == {};
    } else {
      var n := |rows| - 1;
      var front := rows[..n];
      NullCountIsMissingRows(front, c);
      assert forall r :: 0 <= r < n ==> front[r] == rows[r];
      if rows[n][c].None? {
        assert MissingRows(rows, c) == MissingRows(front, c) + {n};
      } else {
        assert MissingRows(rows, c) == MissingRows(front, c);
      }
    }
  }

  /** `null_count / len(df)` for column `c`; `None` is the NaN pandas yields
      for a table with no rows (0 / 0). */
  function MissingFraction(t: Table, c: nat): (f: Option<real>)
    requires WellFormed(t) && c < |t.columns|
    ensures f.Some? <==> |t.rows| > 0
    ensures f.Some? ==> 0.0 <= f.value <= 1.0
    ensures f.Some? ==> f.value * (|t.rows| as real) == NullCount(t.rows, c) as real
  {
    if |t.rows| == 0 then None
    else
      var n := NullCount(t.rows, c);
      assert n as real <= |t.rows| as real;
      Some(n as real / |t.rows| as real)
  }

  /** Column `c` is reported: its fraction is strictly above the threshold.
      NaN compares false, so nothing is reported for an empty table. */
  predicate Flagged(t: Table, c: nat, threshold: real)
    requires WellFormed(t) && c < |t.columns|
  {
    var f := MissingFraction(t, c);
    f.Some? && f.value > threshold
  }

  /** The report restricted to the first `k` columns. */
  function FlaggedAmong(t: Table, threshold: real, k: nat): (m: map<string, real>)
    requires WellFormed(t) && k <= |t.columns|
    ensures forall c :: 0 <= c < k ==> (t.columns[c].name in m <==> Flagged(t, c, threshold))
    ensures forall c :: 0 <= c < k && t.columns[c].name in m ==>
      MissingFraction(t, c) == Some(m[t.columns[c].name])
    ensures forall n :: n in m ==> n in Names(t)[..k]
  {
    if k == 0 then map[]
    else
      var rest := FlaggedAmong(t, threshold, k - 1);
      var name := t.columns[k - 1].name;
      assert name !in rest;
      assert Names(t)[..k] == Names(t)[..k - 1] + [name];
      if Flagged(t, k - 1, threshold) then rest[name := MissingFraction(t, k - 1).value]
      else rest
  }

  /** `check_missing_values(threshold)`: every column whose missing fraction
      is strictly greater than `threshold`, mapped to that fraction. */
  function MissingReport(t: Table, threshold: real): (m: map<string, real>)
    requires WellFormed(t)
    ensures forall c :: 0 <= c < |t.columns| ==>
      (t.columns[c].name in m <==> Flagged(t, c, threshold))
    ensures forall c :: 0 <= c < |t.columns| && t.columns[c].name in m ==>
      MissingFraction(t, c) == Some(m[t.columns[c].name]) && m[t.columns[c].name] > threshold
    ensures forall n :: n in m ==> HasColumn(t, n)
    ensures forall c :: 0 <= c < |t.columns| && MissingFraction(t, c) == Some(threshold) ==>
      t.columns[c].name !in m
    ensures |t.rows| == 0 ==> m == map[]
  {
    var m := FlaggedAmong(t, threshold, |t.columns|);
    assert Names(t)[..|t.columns|] == Names(t);
    if |t.rows| == 0 then
      assert forall c :: 0 <= c < |t.columns| ==> t.columns[c].name !in m;
      assert m.Keys == {};
      m
    else m
  }

  /** Raising the threshold never reports more columns. */
  lemma ThresholdMonotone(t: Table, low: real, high: real)
    requires WellFormed(t) && low <= high
    ensures MissingReport(t, high).Keys <= MissingReport(t, low).Keys
  {
  }
}

=== FILE: outliers.dfy ===
/** The outlier check: rows whose value lies strictly outside
    mean ± n_std·std of their numeric column. */
module Outliers {
  import opened Wrappers
  import opened Dataset

  /** The rows whose cell in column `c` holds a number. */
  ghost function NumberRows(rows: seq<seq<Cell>>, c: nat): set<nat>
    requires forall r :: 0 <= r < |rows| ==> c < |rows[r]|
  {
    set r: nat | r < |rows| && NumValue(rows[r][c]).Some?
  }

  /** The numbers present in column `c`, in row order (missing and
      non-numeric cells skipped). */
  function ColumnNumbers(rows: seq<seq<Cell>>, c: nat): (xs: seq<real>)
    requires forall r :: 0 <= r < |rows| ==> c < |rows[r]|
    ensures |xs| == |NumberRows(rows, c)|
    decreases |rows|
  {
    if |rows| == 0 then
      assert NumberRows(rows, c) == {};
      []
    else
      var n := |rows| - 1;
      var front := ColumnNumbers(rows[..n], c);
      assert forall r :: 0 <= r < n ==> rows[..n][r] == rows[r];
      match NumValue(rows[n][c])
      case Some(x) =>
        assert NumberRows(rows, c) == NumberRows(rows[..n], c) + {n};
        front + [x]
      case None =>
        assert NumberRows(rows, c) == NumberRows(rows[..n], c);
        front
  }

  /** A number is collected iff some row's cell in column `c` holds it. */
  lemma {:induction false} ColumnNumbersMembers(rows: seq<seq<Cell>>, c: nat, x: real)
    requires forall r :: 0 <= r < |rows| ==> c < |rows[r]|
    ensures x in ColumnNumbers(rows, c) <==> exists r :: 0 <= r < |rows| && NumValue(rows[r][c]) == Some(x)
    decreases |rows|
  {
    if |rows| > 0 {
      var n := |rows| - 1;
      ColumnNumbersMembers(rows[..n], c, x);
      assert forall r :: 0 <= r < n ==> rows[..n][r] == rows[r];
    }
  }

  /** The rows whose cell in column `c` holds exactly `x`. */
  ghost function RowsHolding(rows: seq<seq<Cell>>, c: nat, x: real): set<nat>
    requires forall r :: 0 <= r < |rows| ==> c < |rows[r]|
  {
    set r: nat | r < |rows| && NumValue(rows[r][c]) == Some(x)
  }

  /** Adding the last row adds it to the rows holding `x` iff it holds `x`. */
  lemma RowsHoldingLast(rows: seq<seq<Cell>>, c: nat, x: real)
    requires |rows| > 0 && forall r :: 0 <= r < |rows| ==> c < |rows[r]|
    ensures RowsHolding(rows, c, x) == RowsHolding(rows[..|rows| - 1], c, x) +
      (if NumValue(rows[|rows| - 1][c]) == Some(x) then {|rows| - 1} else {})
  {
    var n := |rows| - 1;
    assert forall r :: 0 <= r < n ==> rows[..n][r] == rows[r];
  }

  /** Adding the last row contributes `x` once to the collected numbers iff
      it holds `x`. */
  lemma ColumnNumbersLast(rows: seq<seq<Cell>>, c: nat, x: real)
    requires |rows| > 0 && forall r :: 0 <= r < |rows| ==> c < |rows[r]|
    ensures multiset(ColumnNumbers(rows, c))[x] == multiset(ColumnNumbers(rows[..|rows| - 1], c))[x] +
      (if NumValue(rows[|rows| - 1][c]) == Some(x) then 1 else 0)
  {
    var front := ColumnNumbers(rows[..|rows| - 1], c);
    match NumValue(rows[|rows| - 1][c])
    case Some(y) =>
      assert ColumnNumbers(rows, c) == front + [y];
      assert multiset(front + [y]) == multiset(front) + multiset{y};
    case None =>
  }

  /** Each number is collected once per row holding it, so the mean and
      variance weigh every row's value. */
  lemma {:induction false} ColumnNumbersCounts(rows: seq<seq<Cell>>, c: nat, x: real)
    requires forall r :: 0 <= r < |rows| ==> c < |rows[r]|
    ensures multiset(ColumnNumbers(rows, c))[x] == |RowsHolding(rows, c, x)|
    decreases |rows|
  {
    if |rows| == 0 {
      assert RowsHolding(rows, c, x) == {};
    } else {
      var n := |rows| - 1;
      ColumnNumbersCounts(rows[..n], c, x);
      ColumnNumbersLast(rows, c, x);
      RowsHoldingLast(rows, c, x);
      assert n !in RowsHolding(rows[..n], c, x);
    }
  }

  function Sum(xs: seq<real>): real
    decreases |xs|
  {
    if |xs| == 0 then 0.0 else Sum(xs[..|xs| - 1]) + xs[|xs| - 1]
  }

  /** The distance |a - b|. */
  function Distance(a: real, b: real): (d: real)
    ensures d >= 0.0
    ensures d == 0.0 <==> a == b
  {
    if a >= b then a - b else b - a
  }

  /** Sum of squared deviations of `xs` from `m`. */
  function SquaredDeviations(xs: seq<real>, m: real): (s: real)
    ensures s >= 0.0
    decreases |xs|
  {
    if |xs| == 0 then 0.0
    else
      var d := Distance(xs[|xs| - 1], m);
      SquareNonNegative(d);
      SquaredDeviations(xs[..|xs| - 1], m) + d * d
  }

  /** A column's mean and sample variance (the square of pandas' `std()`,
      which divides by n - 1). */
  datatype Stats = Stats(mean: real, variance: real)

  /** Mean and sample variance over the present numbers of column `c`;
      `None` when fewer than two numbers are present, where pandas' `std()`
      is NaN and no comparison against the band holds. */
  function ColumnStats(t: Table, c: nat): (s: Option<Stats>)
    requires WellFormed(t) && c < |t.columns|
    ensures s.Some? <==> |ColumnNumbers(t.rows, c)| >= 2
    ensures s.Some? ==> s.value.variance >= 0.0
    ensures s.Some? ==>
      s.value.mean * (|ColumnNumbers(t.rows, c)| as real) == Sum(ColumnNumbers(t.rows, c))
    ensures s.Some? ==>
      s.value.variance * ((|ColumnNumbers(t.rows, c)| as real) - 1.0) ==
      SquaredDeviations(ColumnNumbers(t.rows, c), s.value.mean)
  {
    var xs := ColumnNumbers(t.rows, c);
    if |xs| < 2 then None else Some(SampleStats(xs))
  }

  /** Mean and sample variance of at least two numbers. */
  function SampleStats(xs: seq<real>): (s: Stats)
    requires |xs| >= 2
    ensures s.variance >= 0.0
    ensures s.mean * (|xs| as real) == Sum(xs)
    ensures s.variance * ((|xs| as real) - 1.0) == SquaredDeviations(xs, s.mean)
  {
    var n := |xs| as real;
    var mean := Sum(xs) / n;
    var ss := SquaredDeviations(xs, mean);
    Quotient(Sum(xs), n);
    Quotient(ss, n - 1.0);
    Stats(mean, ss / (n - 1.0))
  }

  /** Dividing by a positive number and multiplying back is the identity,
      and a non-negative numerator keeps the quotient non-negative. */
  lemma Quotient(a: real, b: real)
    requires b > 0.0
    ensures (a / b) * b == a
    ensures a >= 0.0 ==> a / b >= 0.0
  {
  }

  /** `v` lies strictly outside [mean - nStd·std, mean + nStd·std], stated
      without the square root: for nStd >= 0 through squared distances; for a
      negative nStd the two bounds cross, so every value qualifies unless
      std is zero, in which case exactly the values other than the mean do. */
  predicate OutsideBand(v: real, s: Stats, nStd: real)
  {
    if nStd >= 0.0 then Distance(v, s.mean) * Distance(v, s.mean) > nStd * nStd * s.variance
    else s.variance > 0.0 || v != s.mean
  }

  lemma ProductPositive(x: real, y: real)
    requires x > 0.0 && y > 0.0
    ensures x * y > 0.0
  {
  }

  lemma SquareNonNegative(x: real)
    requires x >= 0.0
    ensures x * x >= 0.0
  {
  }

  /** Squaring preserves the strict order of non-negative numbers. */
  lemma SquareMonotone(a: real, b: real)
    requires 0.0 <= a && 0.0 <= b
    ensures a < b <==> a * a < b * b
  {
    assert (b - a) * (b + a) == b * b - a * a;
    if a < b {
      ProductPositive(b - a, b + a);
    } else if a > b {
      ProductPositive(a - b, a + b);
    }
  }

  /** The source's comparison against the band built from the standard
      deviation `sd` agrees with the squared-distance test, whatever the
      sign of `nStd`. */
  lemma BandTest(v: real, mean: real, sd: real, nStd: real)
    requires sd >= 0.0
    ensures (v < mean - nStd * sd || v > mean + nStd * sd) <==>
      OutsideBand(v, Stats(mean, sd * sd), nStd)
  {
    var d := Distance(v, mean);
    var b := nStd * sd;
    if nStd >= 0.0 {
      assert b >= 0.0;
      SquareMonotone(b, d);
      assert b * b == nStd * nStd * (sd * sd);
    } else if sd > 0.0 {
      assert b < 0.0;
      ProductPositive(sd, sd);
    } else {
      assert sd * sd == 0.0;
      assert b == 0.0;
    }
  }

  /** With nStd = 0 exactly the values different from the mean qualify. */
  lemma ZeroWidthBand(v: real, s: Stats)
    ensures OutsideBand(v, s, 0.0) <==> v != s.mean
  {
    var d := Distance(v, s.mean);
    if v != s.mean {
      ProductPositive(d, d);
    }
  }

  /** Row `r` is listed for column `c`: the column has a standard deviation,
      the cell holds a number, and the number lies outside the band. */
  predicate IsOutlier(t: Table, c: nat, r: nat, nStd: real)
    requires WellFormed(t) && c < |t.columns| && r < |t.rows|
  {
    var s := ColumnStats(t, c);
    var x := NumValue(t.rows[r][c]);
    s.Some? && x.Some? && OutsideBand(x.value, s.value, nStd)
  }

  /** The outlier rows of column `c` from row `from` on, in ascending order. */
  function OutlierRowsFrom(t: Table, c: nat, nStd: real, from: nat): (rs: seq<nat>)
    requires WellFormed(t) && c < |t.columns| && from <= |t.rows|
    ensures forall r: nat :: r in rs <==> from <= r < |t.rows| && IsOutlier(t, c, r, nStd)
    ensures forall a :: 0 <= a < |rs| ==> from <= rs[a]
    ensures forall a, b :: 0 <= a < b < |rs| ==> rs[a] < rs[b]
    ensures ColumnStats(t, c).None? ==> rs == []
    decreases |t.rows| - from
  {
    if from == |t.rows| then []
    else
      var rest := OutlierRowsFrom(t, c, nStd, from + 1);
      if IsOutlier(t, c, from, nStd) then [from] + rest else rest
  }

  /** The outlier rows of column `c`, ascending (`.index.tolist()`). */
  function ColumnOutliers(t: Table, c: nat, nStd: real): (rs: seq<nat>)
    requires WellFormed(t) && c < |t.columns|
    ensures forall r: nat :: r in rs <==> r < |t.rows| && IsOutlier(t, c, r, nStd)
    ensures forall a, b :: 0 <= a < b < |rs| ==> rs[a] < rs[b]
    ensures |ColumnNumbers(t.rows, c)| < 2 ==> rs == []
  {
    OutlierRowsFrom(t, c, nStd, 0)
  }

  /** The requested columns all exist; pandas raises KeyError otherwise. */
  predicate ValidColumns(t: Table, cols: seq<string>)
  {
    forall j :: 0 <= j < |cols| ==> HasColumn(t, cols[j])
  }

  /** The report for the first `k` requested columns. */
  function OutliersAmong(t: Table, cols: seq<string>, nStd: real, k: nat): (m: map<string, seq<nat>>)
    requires WellFormed(t) && ValidColumns(t, cols) && k <= |cols|
    ensures forall n :: n in m <==> n in cols[..k] && IsNumericColumn(t, n)
    ensures forall n :: n in m ==> m[n] == ColumnOutliers(t, IndexOf(t, n), nStd)
  {
    if k == 0 then map[]
    else
      var m := OutliersAmong(t, cols, nStd, k - 1);
      var name := cols[k - 1];
      assert cols[..k] == cols[..k - 1] + [name];
      if IsNumericColumn(t, name) then m[name := ColumnOutliers(t, IndexOf(t, name), nStd)]
      else m
  }

  /** `check_outliers(columns, n_std)`: one entry per requested numeric
      column (others are skipped silently) listing its outlier rows. */
  function OutlierReport(t: Table, cols: seq<string>, nStd: real): (m: map<string, seq<nat>>)
    requires WellFormed(t) && ValidColumns(t, cols)
    ensures forall n :: n in m <==> n in cols && IsNumericColumn(t, n)
    ensures forall n, r: nat :: n in m ==>
      (r in m[n] <==> r < |t.rows| && IsOutlier(t, IndexOf(t, n), r, nStd))
    ensures forall n :: n in m ==> forall a, b :: 0 <= a < b < |m[n]| ==> m[n][a] < m[n][b]
  {
    assert cols[..|cols|] == cols;
    OutliersAmong(t, cols, nStd, |cols|)
  }
}

=== FILE: quality_validator.dfy ===
/** The validation engine: a table plus the store of the latest result of
    each check, and the summary that combines them. */
module QualityValidator {
  import opened Wrappers
  import opened Dataset
  import MissingValues
  import Duplicates
  import Outliers
  import Schema

  /** The check-specific part of a stored result. */
  datatype Details =
    | MissingDetails(fractions: map<string, real>)
    | DuplicateDetails(duplicateCount: nat)
    | OutlierDetails(indices: map<string, seq<nat>>)
    | SchemaDetails(mismatchedColumns: seq<string>)

  /** One stored `{status, details}` entry. */
  datatype CheckResult = CheckResult(status: bool, details: Details)

  /** `validation_results`: check identifier to its latest result. */
  type Results = map<string, CheckResult>

  /** A `DataQualityValidator`: the table it was built on and its results. */
  datatype Validator = Validator(df: Table, results: Results)

  /** What a check returns to its caller, with the validator it leaves. */
  datatype Ran<T> = Ran(validator: Validator, value: T)

  const MissingValuesKey: string := "missing_values"
  const DuplicatesKey: string := "duplicates"
  const OutliersKey: string := "outliers"
  const SchemaKey: string := "schema"

  /** The defaults of `check_missing_values(threshold=0.1)` and
      `check_outliers(columns, n_std=3)`; `check_duplicates` defaults to
      `subset=None`. */
  const DefaultThreshold: real := 0.1
  const DefaultNStd: real := 3.0

  /** A fresh validator: nothing stored yet. */
  function Init(df: Table): (v: Validator)
    ensures v.df == df && |v.results| == 0
  {
    Validator(df, map[])
  }

  /** Store `r` under `key`, replacing any earlier entry there and leaving
      every other entry as it was. */
  function Record(results: Results, key: string, r: CheckResult): (results': Results)
    ensures key in results' && results'[key] == r
    ensures results'.Keys == results.Keys + {key}
    ensures forall k :: k in results && k != key ==> results'[k] == results[k]
  {
    results[key := r]
  }

  /** Last write wins: a second result under the same key replaces the first. */
  lemma RecordOverwrites(results: Results, key: string, first: CheckResult, second: CheckResult)
    ensures Record(Record(results, key, first), key, second) == Record(results, key, second)
  {
  }

  /** Writes under different keys do not interfere, whatever their order. */
  lemma RecordCommutes(results: Results, k1: string, r1: CheckResult, k2: string, r2: CheckResult)
    requires k1 != k2
    ensures Record(Record(results, k1, r1), k2, r2) == Record(Record(results, k2, r2), k1, r1)
  {
  }

  /** The entries the four checks store for a given answer. */
  function MissingResult(report: map<string, real>): CheckResult
  {
    CheckResult(|report| == 0, MissingDetails(report))
  }

  function DuplicateResult(count: nat): CheckResult
  {
    CheckResult(count == 0, DuplicateDetails(count))
  }

  function OutlierResult(report: map<string, seq<nat>>): CheckResult
  {
    CheckResult(NoOutliers(report), OutlierDetails(report))
  }

  function SchemaResult(mismatched: seq<string>): CheckResult
  {
    CheckResult(|mismatched| == 0, SchemaDetails(mismatched))
  }

  /** `check_missing_values(threshold)`. */
  function CheckMissingValues(v: Validator, threshold: real): (ran: Ran<map<string, real>>)
    requires WellFormed(v.df)
    ensures ran.validator.df == v.df
    ensures forall c :: 0 <= c < |v.df.columns| ==>
      (v.df.columns[c].name in ran.value <==> MissingValues.Flagged(v.df, c, threshold))
    ensures forall c :: 0 <= c < |v.df.columns| && v.df.columns[c].name in ran.value ==>
      MissingValues.MissingFraction(v.df, c) == Some(ran.value[v.df.columns[c].name])
    ensures forall n :: n in ran.value ==> HasColumn(v.df, n)
    ensures ran.validator.results ==
      Record(v.results, MissingValuesKey, MissingResult(ran.value))
  {
    var report := MissingValues.MissingReport(v.df, threshold);
    Ran(v.(results := Record(v.results, MissingValuesKey, MissingResult(report))), report)
  }

  /** `check_duplicates(subset)`. */
  function CheckDuplicates(v: Validator, subset: Option<seq<string>>): (ran: Ran<nat>)
    requires WellFormed(v.df) && Duplicates.ValidSubset(v.df, subset)
    ensures ran.validator.df == v.df
    ensures ran.value <= |v.df.rows|
    ensures |v.df.rows| == 0 ==> ran.value == 0
    ensures |v.df.rows| > 0 ==>
      ran.value == |Duplicates.RepeatRows(Duplicates.RowKeys(v.df, Duplicates.KeyColumns(v.df, subset)))|
    ensures |v.df.rows| > 0 ==> (ran.value == 0 <==>
      forall i, j :: 0 <= j < i < |v.df.rows| ==>
        Duplicates.Project(v.df.rows[j], Duplicates.KeyColumns(v.df, subset)) !=
        Duplicates.Project(v.df.rows[i], Duplicates.KeyColumns(v.df, subset)))
    ensures ran.validator.results ==
      Record(v.results, DuplicatesKey, DuplicateResult(ran.value))
  {
    var n := Duplicates.DuplicateCount(v.df, subset);
    Duplicates.DuplicateCountIsRepeatRows(v.df, subset);
    Ran(v.(results := Record(v.results, DuplicatesKey, DuplicateResult(n))), n)
  }

  /** Every listed column has no outlier rows. */
  predicate NoOutliers(m: map<string, seq<nat>>)
  {
    forall n :: n in m ==> |m[n]| == 0
  }

  /** `check_outliers(columns, n_std)`. */
  function CheckOutliers(v: Validator, columns: seq<string>, nStd: real): (ran: Ran<map<string, seq<nat>>>)
    requires WellFormed(v.df) && Outliers.ValidColumns(v.df, columns)
    ensures ran.validator.df == v.df
    ensures forall n :: n in ran.value <==> n in columns && IsNumericColumn(v.df, n)
    ensures forall n, r: nat :: n in ran.value ==>
      (r in ran.value[n] <==> r < |v.df.rows| && Outliers.IsOutlier(v.df, IndexOf(v.df, n), r, nStd))
    ensures forall n :: n in ran.value ==>
      forall a, b :: 0 <= a < b < |ran.value[n]| ==> ran.value[n][a] < ran.value[n][b]
    ensures ran.validator.results ==
      Record(v.results, OutliersKey, OutlierResult(ran.value))
  {
    var m := Outliers.OutlierReport(v.df, columns, nStd);
    Ran(v.(results := Record(v.results, OutliersKey, OutlierResult(m))), m)
  }

  /** `validate_schema(expected_schema)`. */
  function ValidateSchema(v: Validator, expected: seq<Schema.Expectation>): (ran: Ran<seq<string>>)
    requires Schema.SchemaColumnsUnique(v.df, expected)
    ensures ran.validator.df == v.df
    ensures forall n :: n in ran.value <==> Schema.Fails(v.df, expected, n)
    ensures Schema.IsSubsequence(ran.value, Schema.Columns(expected))
    ensures ran.validator.results ==
      Record(v.results, SchemaKey, SchemaResult(ran.value))
  {
    var r := Schema.Mismatches(v.df, expected);
    Ran(v.(results := Record(v.results, SchemaKey, SchemaResult(r))), r)
  }

  /** The report `get_validation_summary` returns; `timestamp` is whatever
      clock reading the caller supplies. */
  datatype Summary = Summary(
    timestamp: string,
    totalRows: nat,
    totalColumns: nat,
    checks: Results,
    overallStatus: bool)

  /** Every stored check passed (vacuously so when nothing is stored). */
  predicate AllPassed(results: Results)
  {
    forall k :: k in results ==> results[k].status
  }

  /** `get_validation_summary()` at clock reading `now`. */
  function GetValidationSummary(v: Validator, now: string): (s: Summary)
    ensures s.timestamp == now
    ensures s.totalRows == |v.df.rows| && s.totalColumns == |v.df.columns|
    ensures s.checks == v.results
    ensures s.overallStatus <==> forall k :: k in v.results ==> v.results[k].status
  {
    Summary(now, |v.df.rows|, |v.df.columns|, v.results, AllPassed(v.results))
  }

  /** With no check run yet the overall status is true. */
  lemma SummaryOfFreshValidator(df: Table, now: string)
    ensures GetValidationSummary(Init(df), now).overallStatus
  {
  }

  /** One stored failure makes the overall status false. */
  lemma FailureIsFatal(v: Validator, now: string, key: string)
    requires key in v.results && !v.results[key].status
    ensures !GetValidationSummary(v, now).overallStatus
  {
  }

  /** After recording a result, the overall status is that result's status
      together with every other stored status. */
  lemma SummaryAfterRecord(v: Validator, key: string, r: CheckResult, now: string)
    ensures GetValidationSummary(v.(results := Record(v.results, key, r)), now).overallStatus <==>
      r.status && forall k :: k in v.results && k != key ==> v.results[k].status
  {
  }

  /** Re-running the missing-values check with the same threshold changes
      nothing further. */
  lemma MissingValuesIdempotent(v: Validator, threshold: real)
    requires WellFormed(v.df)
    ensures CheckMissingValues(CheckMissingValues(v, threshold).validator, threshold) ==
      CheckMissingValues(v, threshold)
  {
  }

  /** Re-running the duplicate check with the same subset changes nothing further. */
  lemma DuplicatesIdempotent(v: Validator, subset: Option<seq<string>>)
    requires WellFormed(v.df) && Duplicates.ValidSubset(v.df, subset)
    ensures CheckDuplicates(CheckDuplicates(v, subset).validator, subset) == CheckDuplicates(v, subset)
  {
  }

  /** Re-running the outlier check with the same arguments changes nothing further. */
  lemma OutliersIdempotent(v: Validator, columns: seq<string>, nStd: real)
    requires WellFormed(v.df) && Outliers.ValidColumns(v.df, columns)
    ensures CheckOutliers(CheckOutliers(v, columns, nStd).validator, columns, nStd) ==
      CheckOutliers(v, columns, nStd)
  {
  }

  /** Re-running the schema check with the same schema changes nothing further. */
  lemma SchemaIdempotent(v: Validator, expected: seq<Schema.Expectation>)
    requires Schema.SchemaColumnsUnique(v.df, expected)
    ensures ValidateSchema(ValidateSchema(v, expected).validator, expected) == ValidateSchema(v, expected)
  {
  }

  /** Checks write different keys, so their order does not matter: running
      the duplicate check before or after the schema check leaves the same
      results. */
  lemma DuplicatesAndSchemaCommute(v: Validator, subset: Option<seq<string>>, expected: seq<Schema.Expectation>)
    requires WellFormed(v.df) && Duplicates.ValidSubset(v.df, subset)
    ensures ValidateSchema(CheckDuplicates(v, subset).validator, expected).validator ==
      CheckDuplicates(ValidateSchema(v, expected).validator, subset).validator
  {
  }

  /** A fresh validator after the four checks in sequence. */
  function RunAll(df: Table, threshold: real, subset: Option<seq<string>>, columns: seq<string>,
                  nStd: real, expected: seq<Schema.Expectation>): (v: Validator)
    requires WellFormed(df) && Duplicates.ValidSubset(df, subset) && Outliers.ValidColumns(df, columns)
    ensures v.df == df
    ensures v.results == map[
      MissingValuesKey := MissingResult(MissingValues.MissingReport(df, threshold)),
      DuplicatesKey := DuplicateResult(Duplicates.DuplicateCount(df, subset)),
      OutliersKey := OutlierResult(Outliers.OutlierReport(df, columns, nStd)),
      SchemaKey := SchemaResult(Schema.Mismatches(df, expected))]
  {
    var v1 := CheckMissingValues(Init(df), threshold).validator;
    var v2 := CheckDuplicates(v1, subset).validator;
    var v3 := CheckOutliers(v2, columns, nStd).validator;
    ValidateSchema(v3, expected).validator
  }

  /** The missing-values report is empty iff no column is over the threshold. */
  lemma MissingReportEmpty(df: Table, threshold: real)
    requires WellFormed(df)
    ensures |MissingValues.MissingReport(df, threshold)| == 0 <==>
      forall c :: 0 <= c < |df.columns| ==> !MissingValues.Flagged(df, c, threshold)
  {
    var m := MissingValues.MissingReport(df, threshold);
    if |m| != 0 {
      var n :| n in m;
      assert MissingValues.Flagged(df, IndexOf(df, n), threshold);
    }
  }

  /** The outlier report has only empty lists iff no requested numeric
      column has an outlier row. */
  lemma OutlierReportEmpty(df: Table, columns: seq<string>, nStd: real)
    requires WellFormed(df) && Outliers.ValidColumns(df, columns)
    ensures NoOutliers(Outliers.OutlierReport(df, columns, nStd)) <==>
      forall n, r: nat :: n in columns && IsNumericColumn(df, n) && r < |df.rows| ==>
        !Outliers.IsOutlier(df, IndexOf(df, n), r, nStd)
  {
    var m := Outliers.OutlierReport(df, columns, nStd);
    if !NoOutliers(m) {
      var n :| n in m && |m[n]| != 0;
      assert m[n][0] in m[n];
    }
  }

  /** A store holding exactly the four checks' entries passes iff each does. */
  lemma AllPassedOfFour(missing: CheckResult, duplicates: CheckResult, outliers: CheckResult, schema: CheckResult)
    ensures AllPassed(map[MissingValuesKey := missing, DuplicatesKey := duplicates,
                          OutliersKey := outliers, SchemaKey := schema]) <==>
      missing.status && duplicates.status && outliers.status && schema.status
  {
    var rs := map[MissingValuesKey := missing, DuplicatesKey := duplicates,
                  OutliersKey := outliers, SchemaKey := schema];
    assert MissingValuesKey != DuplicatesKey && MissingValuesKey != OutliersKey && MissingValuesKey != SchemaKey;
    assert DuplicatesKey != OutliersKey && DuplicatesKey != SchemaKey && OutliersKey != SchemaKey;
    assert rs[MissingValuesKey] == missing && rs[DuplicatesKey] == duplicates;
    assert rs[OutliersKey] == outliers && rs[SchemaKey] == schema;
  }

  /** After the four checks the overall status is the conjunction of the
      four checks' own pass conditions. */
  lemma RunAllPassed(df: Table, threshold: real, subset: Option<seq<string>>,
                     columns: seq<string>, nStd: real, expected: seq<Schema.Expectation>)
    requires WellFormed(df) && Duplicates.ValidSubset(df, subset) && Outliers.ValidColumns(df, columns)
    ensures AllPassed(RunAll(df, threshold, subset, columns, nStd, expected).results) <==>
      && |MissingValues.MissingReport(df, threshold)| == 0
      && Duplicates.DuplicateCount(df, subset) == 0
      && NoOutliers(Outliers.OutlierReport(df, columns, nStd))
      && |Schema.Mismatches(df, expected)| == 0
  {
    AllPassedOfFour(
      MissingResult(MissingValues.MissingReport(df, threshold)),
      DuplicateResult(Duplicates.DuplicateCount(df, subset)),
      OutlierResult(Outliers.OutlierReport(df, columns, nStd)),
      SchemaResult(Schema.Mismatches(df, expected)));
  }

  /** Running all four checks on a fresh validator yields an overall pass
      iff no column is over the missing threshold, no row repeats an earlier
      one on the subset, no requested numeric column has an outlier, and no
      schema entry fails. */
  lemma FullRunSummary(df: Table, threshold: real, subset: Option<seq<string>>,
                       columns: seq<string>, nStd: real,
                       expected: seq<Schema.Expectation>, now: string)
    requires WellFormed(df) && Duplicates.ValidSubset(df, subset) && Outliers.ValidColumns(df, columns)
    ensures GetValidationSummary(RunAll(df, threshold, subset, columns, nStd, expected), now).overallStatus <==>
      && (forall c :: 0 <= c < |df.columns| ==> !MissingValues.Flagged(df, c, threshold))
      && Duplicates.DuplicateCount(df, subset) == 0
      && (forall n, r: nat :: n in columns && IsNumericColumn(df, n) && r < |df.rows| ==>
            !Outliers.IsOutlier(df, IndexOf(df, n), r, nStd))
      && |Schema.Mismatches(df, expected)| == 0
  {
    RunAllPassed(df, threshold, subset, columns, nStd, expected);
    MissingReportEmpty(df, threshold);
    OutlierReportEmpty(df, columns, nStd);
  }
}

=== FILE: scenarios.dfy ===
/** Worked examples over small concrete tables. */
module Scenarios {
  import opened Wrappers
  import opened Dataset
  import MissingValues
  import Duplicates
  import Outliers
  import Schema

  function IntColumn(name: string): Column
  {
    Column(name, DType("int64", true))
  }

  /** A one-column table holding `xs`. */
  function SingleColumn(name: string, xs: seq<real>): (t: Table)
    ensures WellFormed(t)
  {
    Table([IntColumn(name)], seq(|xs|, i requires 0 <= i < |xs| => [Some(Num(xs[i]))]))
  }

  /** Column A = [1, 1, 2, 2, 3]: the second 1 and the second 2 repeat
      earlier rows, so two duplicates. */
  lemma DuplicatesExample()
    ensures Duplicates.DuplicateCount(SingleColumn("A", [1.0, 1.0, 2.0, 2.0, 3.0]), None) == 2
  {
    var t := SingleColumn("A", [1.0, 1.0, 2.0, 2.0, 3.0]);
    Duplicates.AllColumnsCountsDistinctRows(t);
    var r1, r2, r3 := [Some(Num(1.0))], [Some(Num(2.0))], [Some(Num(3.0))];
    assert t.rows == [r1, r1, r2, r2, r3];
    assert Duplicates.Distinct(t.rows) == {r1, r2, r3};
  }

  /** Every row of a one-column table of numbers contributes its number. */
  lemma {:induction false} SingleColumnNumbers(name: string, xs: seq<real>)
    ensures Outliers.ColumnNumbers(SingleColumn(name, xs).rows, 0) == xs
    decreases |xs|
  {
    if |xs| > 0 {
      var front := xs[..|xs| - 1];
      SingleColumnNumbers(name, front);
      assert SingleColumn(name, xs).rows[..|xs| - 1] == SingleColumn(name, front).rows;
    }
  }

  const B: seq<real> := [10.0, 12.0, 11.0, 13.0, 1000.0]

  /** Column B = [10, 12, 11, 13, 1000] has mean 209.2 and sample variance
      195427.7 (sample std about 442.07). */
  lemma StatsOfB()
    ensures Outliers.ColumnStats(SingleColumn("B", B), 0) == Some(Outliers.Stats(209.2, 195427.7))
  {
    SingleColumnNumbers("B", B);
    assert B[..4] == [10.0, 12.0, 11.0, 13.0];
    assert B[..4][..3] == B[..3] == [10.0, 12.0, 11.0];
    assert B[..3][..2] == B[..2] == [10.0, 12.0];
    assert B[..2][..1] == B[..1] == [10.0];
    assert Outliers.Sum(B[..1]) == 10.0;
    assert Outliers.Sum(B[..2]) == 22.0;
    assert Outliers.Sum(B[..3]) == 33.0;
    assert Outliers.Sum(B[..4]) == 46.0;
    assert Outliers.Sum(B) == 1046.0;
    assert Outliers.SquaredDeviations(B[..1], 209.2) == 39680.64;
    assert Outliers.SquaredDeviations(B[..2], 209.2) == 78568.48;
    assert Outliers.SquaredDeviations(B[..3], 209.2) == 117851.72;
    assert Outliers.SquaredDeviations(B[..4], 209.2) == 156346.16;
    assert Outliers.SquaredDeviations(B, 209.2) == 781710.8;
  }

  /** With n_std = 2 nothing in B is an outlier: 1000 lies 790.8 from the
      mean, inside the band of half-width 2 · 442.07. */
  lemma NoOutlierAtTwoStd()
    ensures Outliers.ColumnOutliers(SingleColumn("B", B), 0, 2.0) == []
  {
    var t := SingleColumn("B", B);
    StatsOfB();
    forall r: nat | r < 5
      ensures !Outliers.IsOutlier(t, 0, r, 2.0)
    {
      assert t.rows[r] == [Some(Num(B[r]))];
    }
    assert Outliers.OutlierRowsFrom(t, 0, 2.0, 4) == [];
    assert Outliers.OutlierRowsFrom(t, 0, 2.0, 3) == [];
    assert Outliers.OutlierRowsFrom(t, 0, 2.0, 2) == [];
    assert Outliers.OutlierRowsFrom(t, 0, 2.0, 1) == [];
  }

  /** With n_std = 1 only row 4 (the 1000) is an outlier. */
  lemma OneOutlierAtOneStd()
    ensures Outliers.ColumnOutliers(SingleColumn("B", B), 0, 1.0) == [4]
  {
    var t := SingleColumn("B", B);
    StatsOfB();
    forall r: nat | r < 5
      ensures Outliers.IsOutlier(t, 0, r, 1.0) <==> r == 4
    {
      assert t.rows[r] == [Some(Num(B[r]))];
    }
    assert Outliers.OutlierRowsFrom(t, 0, 1.0, 4) == [4];
    assert Outliers.OutlierRowsFrom(t, 0, 1.0, 3) == [4];
    assert Outliers.OutlierRowsFrom(t, 0, 1.0, 2) == [4];
    assert Outliers.OutlierRowsFrom(t, 0, 1.0, 1) == [4];
  }

  /** A bool column True, True, True, False, held as the numbers pandas
      averages: 1, 1, 1, 0. */
  const Flags: seq<real> := [1.0, 1.0, 1.0, 0.0]

  function FlagTable(): (t: Table)
    ensures WellFormed(t)
  {
    Table([Column("flag", DType("bool", true))], SingleColumn("flag", Flags).rows)
  }

  /** The flags have mean 0.75 and sample variance 0.25 (std 0.5). */
  lemma StatsOfFlags()
    ensures Outliers.ColumnStats(FlagTable(), 0) == Some(Outliers.Stats(0.75, 0.25))
  {
    SingleColumnNumbers("flag", Flags);
    assert Flags[..3] == [1.0, 1.0, 1.0];
    assert Flags[..3][..2] == Flags[..2] == [1.0, 1.0];
    assert Flags[..2][..1] == Flags[..1] == [1.0];
    assert Outliers.Sum(Flags[..1]) == 1.0;
    assert Outliers.Sum(Flags[..2]) == 2.0;
    assert Outliers.Sum(Flags[..3]) == 3.0;
    assert Outliers.Sum(Flags) == 3.0;
    assert Outliers.SquaredDeviations(Flags[..1], 0.75) == 0.0625;
    assert Outliers.SquaredDeviations(Flags[..2], 0.75) == 0.125;
    assert Outliers.SquaredDeviations(Flags[..3], 0.75) == 0.1875;
    assert Outliers.SquaredDeviations(Flags, 0.75) == 0.75;
  }

  /** A bool column takes part in the outlier check: with n_std = 1 the
      band is [0.25, 1.25] and only the False row lies outside it. */
  lemma FlagOutlier()
    ensures Outliers.ColumnOutliers(FlagTable(), 0, 1.0) == [3]
  {
    var t := FlagTable();
    StatsOfFlags();
    forall r: nat | r < 4
      ensures Outliers.IsOutlier(t, 0, r, 1.0) <==> r == 3
    {
      assert t.rows[r] == [Some(Num(Flags[r]))];
    }
    assert Outliers.OutlierRowsFrom(t, 0, 1.0, 3) == [3];
    assert Outliers.OutlierRowsFrom(t, 0, 1.0, 2) == [3];
    assert Outliers.OutlierRowsFrom(t, 0, 1.0, 1) == [3];
  }

  /** A table with no missing cell reports nothing even at threshold 0:
      a fraction of 0 is not strictly greater than 0. */
  lemma NoNullsNothingFlagged()
    ensures MissingValues.MissingReport(SingleColumn("A", [1.0, 1.0, 2.0, 2.0, 3.0]), 0.0) == map[]
  {
    var t := SingleColumn("A", [1.0, 1.0, 2.0, 2.0, 3.0]);
    MissingValues.NullCountIsMissingRows(t.rows, 0);
    assert forall r :: 0 <= r < |t.rows| ==> t.rows[r][0].Some?;
    assert MissingValues.MissingRows(t.rows, 0) == {};
    assert !MissingValues.Flagged(t, 0, 0.0);
    var m := MissingValues.MissingReport(t, 0.0);
    assert forall n :: n in m ==> n == "A";
    assert "A" !in m;
  }

  /** Expected {A: int64, C: float64} against a table whose A is float64 and
      which has no C: both names are reported, in the order given. */
  lemma SchemaExample()
    ensures Schema.Mismatches(Table([Column("A", DType("float64", true))], []),
                              [Schema.Expectation("A", "int64"), Schema.Expectation("C", "float64")]) == ["A", "C"]
  {
    var t := Table([Column("A", DType("float64", true))], []);
    var e := [Schema.Expectation("A", "int64"), Schema.Expectation("C", "float64")];
    assert Names(t) == ["A"];
    assert e[1..] == [Schema.Expectation("C", "float64")];
    assert e[1..][1..] == [];
  }
}

=== FILE: schema.dfy ===
/** The schema check: which expected columns are absent or carry a dtype
    other than the expected one. */
module Schema {
  import opened Dataset

  /** One entry of the expected schema: a column name and the dtype text
      `str(df[name].dtype)` should print. */
  datatype Expectation = Expectation(column: string, dtypeText: string)

  /** The entry fails: the column is absent, or its dtype text differs. */
  predicate Mismatch(t: Table, e: Expectation)
  {
    !HasColumn(t, e.column) || t.columns[IndexOf(t, e.column)].dtype.text != e.dtypeText
  }

  function Columns(expected: seq<Expectation>): (ns: seq<string>)
    ensures |ns| == |expected|
    ensures forall i :: 0 <= i < |expected| ==> ns[i] == expected[i].column
  {
    seq(|expected|, i requires 0 <= i < |expected| => expected[i].column)
  }

  /** `a` can be obtained from `b` by deleting entries: its entries occur in
      `b` in the same order. */
  predicate IsSubsequence<T(==)>(a: seq<T>, b: seq<T>)
    decreases |b|
  {
    if |a| == 0 then true
    else if |b| == 0 then false
    else if a[0] == b[0] then IsSubsequence(a[1..], b[1..])
    else IsSubsequence(a, b[1..])
  }

  /** Dropping the head of `b` keeps every subsequence of its tail. */
  lemma {:induction false} SubsequenceOfTail<T>(a: seq<T>, b: seq<T>)
    requires |b| > 0 && IsSubsequence(a, b[1..])
    ensures IsSubsequence(a, b)
    decreases |b|, 0
  {
    if |a| > 0 && a[0] == b[0] {
      DropHead(a, b[1..]);
    }
  }

  /** Dropping the head of `a` keeps it a subsequence. */
  lemma {:induction false} DropHead<T>(a: seq<T>, c: seq<T>)
    requires |a| > 0 && IsSubsequence(a, c)
    ensures IsSubsequence(a[1..], c)
    decreases |c|, 1
  {
    if a[0] == c[0] {
      SubsequenceOfTail(a[1..], c);
    } else {
      DropHead(a, c[1..]);
      SubsequenceOfTail(a[1..], c);
    }
  }

  /** Some entry of `expected` for column `n` fails. */
  predicate Fails(t: Table, expected: seq<Expectation>, n: string)
  {
    exists i :: 0 <= i < |expected| && expected[i].column == n && Mismatch(t, expected[i])
  }

  /** No column the schema names occurs twice in `t`. With a repeated name
      `df[col]` is a frame, and reading its `.dtype` raises AttributeError. */
  predicate SchemaColumnsUnique(t: Table, expected: seq<Expectation>)
  {
    forall i, c, d :: 0 <= i < |expected| && 0 <= c < d < |t.columns| && t.columns[c].name == expected[i].column
      ==> t.columns[d].name != expected[i].column
  }

  /** `validate_schema(expected)`: the columns of the failing entries, in
      the order the expected schema lists them. */
  function Mismatches(t: Table, expected: seq<Expectation>): (r: seq<string>)
    requires SchemaColumnsUnique(t, expected)
    ensures forall n :: n in r <==> Fails(t, expected, n)
    ensures IsSubsequence(r, Columns(expected))
    ensures |r| <= |expected|
    decreases |expected|
  {
    if |expected| == 0 then []
    else
      var rest := Mismatches(t, expected[1..]);
      assert Columns(expected)[1..] == Columns(expected[1..]);
      assert forall n :: Fails(t, expected, n) <==>
        (expected[0].column == n && Mismatch(t, expected[0])) || Fails(t, expected[1..], n) by {
        forall n | Fails(t, expected, n)
          ensures (expected[0].column == n && Mismatch(t, expected[0])) || Fails(t, expected[1..], n)
        {
          var i :| 0 <= i < |expected| && expected[i].column == n && Mismatch(t, expected[i]);
          if i > 0 {
            assert expected[1..][i - 1] == expected[i];
          }
        }
      }
      if Mismatch(t, expected[0]) then [expected[0].column] + rest
      else
        SubsequenceOfTail(rest, Columns(expected));
        rest
  }
}

=== FILE: wrappers.dfy ===
/** The optional-value type shared by every module of the model. */
module Wrappers {

  /** A value that may be absent: a missing table cell, a number that did not
      parse, a statistic that pandas would report as NaN. */
  datatype Option<+T> = None | Some(value: T)
}
